=== FILE: README.md ===
# Sentiment model comparison: a Dafny model of its core

The repository compares three sentiment analysers on tweets: VADER, TextBlob and a
transformers pipeline. This project models three parts of its core and proves properties about them:

- **The tweet cleaner** `clean_tweet` (utils.py). It lowercases the text and deletes `@handle` mentions,
  `http…` runs and every character that is neither a letter nor whitespace. It then strips whitespace
  from both ends. Each stage is a recursive function over `string` with Python's `re.sub` semantics:
  matches are leftmost, non-overlapping and greedy.
- **The `SentimentModel` engine** (models.py). This covers loading the configuration with its fallback,
  `initialize_model` for vader, textblob and roberta, and the decision rules of `predict`. The parsed
  YAML is a dynamic tree (`Models.Yaml`). A Python exception is a `Failure` of a `Result`:
  `KeyError`, `TypeError`, `AttributeError` or `ZeroDivisionError`. The engine's fields form an
  immutable `Engine` value, and each operation returns the updated one.
- **The accuracy loop of `run_evaluator`** (evaluate.py). It maps the label codes 4 and 0 to labels.
  Then, for vader, textblob and roberta in turn, it switches the engine to that model, counts exact
  matches over the sample, and reports `correct / sample_size * 100`. `Evaluator.RunEvaluator` is
  the loop as a method with invariants. `Evaluator.Evaluate` is the recursive reference it is proved
  equal to.

Files:

- `wrappers.dfy`: `Option`, `Result` and the `Error` datatype of Python exceptions.
- `subsequence.dfy`: the subsequence relation and its lemmas.
- `cleaner.dfy`: the cleaner.
- `models.dfy`: the engine.
- `evaluate.dfy`: the evaluator.

Parameters stand in for what the model cannot see:

- The three scorers are uninterpreted functions in `Models.Scorers`: VADER's compound score,
  TextBlob's polarity, and the pipeline's top label.
- Whether `transformers` imports, and whether building a pipeline raises `ImportError`, are fields
  of `Models.Runtime`.
- The parsed settings file is an `Option<Yaml>`, with `None` when the file does not exist.
- The sampled dataset rows are a `seq<Evaluator.Row>`.

Whitespace means Python's whitespace set, as `str.isspace`, `str.strip()` and the regex class `\s`
use it on `str`: code points 9-13, 28-32, 0x85, 0xA0, 0x1680, 0x2000-0x200A, 0x2028, 0x2029,
0x202F, 0x205F and 0x3000.

Behaviour worth knowing:

- Cleaning trims only the ends. Inner runs of whitespace stay as they are, so the example tweet
  cleans to `"check  this"` with two spaces. They are not collapsed to one.
- `predict` can raise: vader with no analyzer loaded, a threshold that is not a number, or roberta
  with a VADER analyzer as its model, which is not callable. `Models.Predict` returns a `Failure`
  exactly when Python's `predict` raises, as `Models.Ready` spells out.
- Only `ImportError` disables the roberta strategy. A missing `model_name` entry raises `KeyError`
  once `transformers` imports.
- Rows whose code is neither 0 nor 4 get no label, and they never count as correct.

## Model

| member | source | states |
|---|---|---|
| Cleaner.Clean | utils.py:3-8 | No contract of its own: the composition of the five stages below. `Cleaner.CleanSound`, `Cleaner.CleanBlank`, `Cleaner.CleanExample` and `Cleaner.CleanNotIdempotent` describe it. |
| Cleaner.Lower | utils.py:4 | Lowercasing keeps the length and maps each character on its own: upper-case ASCII letters go to lower case, everything else is unchanged. |
| Cleaner.LowerAgree | utils.py:4 | Any text that agrees with per-character lowercasing at every position is the lowercased text, so the pointwise description determines `Lower`. |
| Cleaner.Span | utils.py:5-6 | The greedy `+` run: every character of the returned prefix satisfies the class, and the next character, if any, does not. |
| Cleaner.SpanExact | utils.py:5-6 | The greedy run is unique: a length with those two properties is the run's length. |
| Cleaner.StripMentions | utils.py:5 | No contract of its own: `Cleaner.StripMentionsSound`, `Cleaner.StripMentionsKeepsPrefix`, `Cleaner.StripMentionsRemovesHandle` and `Cleaner.StripMentionsRemovesInner` describe it. |
| Cleaner.StripMentionsSound | utils.py:5 | Mention removal only deletes characters. Its output has no `@` followed by `[A-Za-z0-9_]`. A second pass changes nothing. |
| Cleaner.StripMentionsRemovesHandle | utils.py:5 | `@` plus a maximal handle is deleted as a whole, and the text after it is processed in the same way. |
| Cleaner.StripMentionsKeepsPrefix | utils.py:5 | A prefix at none of whose positions a mention starts passes through unchanged, and the rest is processed on its own. |
| Cleaner.StripMentionsRemovesInner | utils.py:5 | A mention anywhere after mention-free text is deleted with its whole handle, and the text before it is kept: `hi @bob there` becomes `hi  there`. |
| Cleaner.ExampleInnerMention | utils.py:5 | `"hi @bob"` becomes `"hi "`: the text before the mention stays. |
| Cleaner.StripUrls | utils.py:6 | No contract of its own: `Cleaner.StripUrlsSound`, `Cleaner.StripUrlsRemovesUrl`, `Cleaner.StripUrlsKeepsBareHttp` and `Cleaner.StripUrlsKeepsPrefix` describe it. |
| Cleaner.StripUrlsSound | utils.py:6 | URL removal only deletes characters. Its output has no `http` followed by a non-whitespace character. A second pass changes nothing. |
| Cleaner.StripUrlsRemovesUrl | utils.py:6 | `http` followed by a non-empty run of non-whitespace is deleted up to the next whitespace or the end of the text. |
| Cleaner.StripUrlsKeepsBareHttp | utils.py:6 | `http` directly followed by whitespace is no match, because `\S+` needs at least one character, so it stays. |
| Cleaner.StripUrlsKeepsPrefix | utils.py:6 | A prefix at none of whose positions a URL starts passes through unchanged, and the rest is processed on its own. |
| Cleaner.DropSpecials | utils.py:7 | No contract of its own: `Cleaner.DropSpecialsSound` and `Cleaner.DropSpecialsUnchanged` describe it. |
| Cleaner.DropSpecialsSound | utils.py:7 | The output is a subsequence holding only letters and whitespace. Each letter or whitespace character occurs as often as in the input, and every other character is gone. |
| Cleaner.DropSpecialsUnchanged | utils.py:7 | Text made only of letters and whitespace is left unchanged. |
| Cleaner.Strip | utils.py:8 | The result is the one slice of the input with whitespace-only margins that neither begins nor ends with whitespace. It is empty exactly when the input is all whitespace. |
| Cleaner.CleanSound | utils.py:3-8 | The cleaned text holds only letters and whitespace and no upper-case letter. It neither begins nor ends with whitespace. It is a subsequence of the lowercased input, so it is never longer than the input. |
| Cleaner.CleanBlank | utils.py:3-8 | Empty or whitespace-only text cleans to the empty string. |
| Cleaner.CleanExample | utils.py:3-8 | `"@bob check http://x.com THIS!!"` cleans to `"check  this"`. |
| Cleaner.CleanNotIdempotent | utils.py:3-8 | Cleaning is not idempotent: `"ht.tpx"` cleans to `"httpx"`, which cleans to `""`. |
| Models.Lookup | models.py:19 | No contract of its own: Python's chained subscript `v[k1][k2]…` on a loaded configuration, as on lines 19, 37, 39 and 43. A missing key raises `KeyError` with that key, and subscripting a value that is not a mapping raises `TypeError`. `Models.FallbackMissingKeys` and `Evaluator.EvaluateWithoutConfig` rely on it. |
| Models.LoadConfig | models.py:24-31 | No contract of its own: the parsed file when it exists, otherwise the fallback configuration. `Models.FallbackEngine` and `Models.FallbackMissingKeys` describe what the fallback leads to. |
| Models.New | models.py:16-22 | Construction keeps the loaded configuration and takes the active name from `api_config.active_model`. A failed lookup of that entry is the constructor's error. The active model is then initialised: construction fails exactly when that initialisation raises, so an active textblob with no textblob entry raises `KeyError`. With numeric thresholds, a constructed engine is one `predict` can use. |
| Models.InitializeModel | models.py:33-46 | Initialising never changes the configuration or the active name, and a name other than the three known ones leaves the engine unchanged. vader loads the analyzer and stores `model_config.vader.threshold`. textblob stores `model_config.textblob.polarity_threshold` and keeps the loaded model. roberta clears the model when `transformers` does not import. Otherwise it stores a pipeline for `model_config.roberta.model_name`, or nothing when building it raises `ImportError`, and keeps the threshold. A failed lookup's error is the result. |
| Models.FallbackEngine | models.py:16-37 | Without a settings file the engine is vader, with the analyzer loaded and threshold 0.05. |
| Models.FallbackMissingKeys | models.py:29-46 | With the fallback configuration, initialising textblob raises `KeyError('textblob')`. Initialising roberta raises `KeyError('roberta')` when `transformers` imports, and otherwise only clears the model. |
| Models.InitializeReady | models.py:33-60 | When the configured thresholds are numbers, a successful switch to any name leaves an engine that `predict` can use without raising. |
| Models.NewComplete | models.py:16-46 | With every entry the constructor reads present and numeric thresholds, construction succeeds, keeps the configuration, and leaves a usable engine. |
| Models.Predict | models.py:48-63 | `predict` returns a label exactly when the engine is usable. It returns `neutral` exactly when the active name is unknown, or is roberta with no model loaded (`self.model` is `None`). |
| Models.Threshold | models.py:50-56 | No contract of its own: `Models.VaderRule`, `Models.TextBlobRule` and `Models.ThresholdMonotone` describe it. |
| Models.VaderRule | models.py:50-52 | vader: the answer is positive exactly when the compound score is at least the threshold, and negative exactly when it is below. |
| Models.TextBlobRule | models.py:54-56 | textblob: the answer is positive exactly when the polarity is strictly above the threshold. It is negative otherwise, including on a tie. |
| Models.RobertaRule | models.py:58-60 | roberta with a pipeline: the answer is positive exactly when the top label is `LABEL_2`. Every other label is negative. |
| Models.ThresholdRulesNeverNeutral | models.py:50-56 | A usable vader or textblob engine always answers positive or negative. |
| Models.ThresholdMonotone | models.py:50-56 | Both threshold rules are monotone: a text scoring at least as high as a positive text is positive too. |
| Evaluator.ActualLabel | evaluate.py:16 | Code 4 maps to positive and code 0 to negative, each in both directions. Every other code has no label. |
| Evaluator.IsCorrect | evaluate.py:29 | No contract of its own: `Evaluator.NeverCorrect` and `Evaluator.TallyAtMostLabelled` describe it. |
| Evaluator.NeverCorrect | evaluate.py:16-29 | A neutral prediction never matches, and neither does a row with no label. |
| Evaluator.Switch | evaluate.py:23-24 | Switching sets the active name to the model being scored and keeps the configuration. |
| Evaluator.SwitchVaderRule | evaluate.py:23-29 | After switching to vader with a numeric threshold `t` configured, a prediction is positive exactly when the compound score is at least `t`, and negative exactly when it is below. |
| Evaluator.SwitchTextBlobRule | evaluate.py:23-29 | After switching to textblob with a numeric `polarity_threshold` `t` configured, a prediction is positive exactly when the polarity is above `t`, and negative otherwise. |
| Evaluator.SwitchRobertaRule | evaluate.py:23-29 | After switching to roberta with a configured `model_name`, a loaded pipeline answers positive exactly on `LABEL_2`. If the pipeline did not load, every answer is neutral (`Evaluator.SwitchRobertaNoTransformers` covers the case where `transformers` is missing). |
| Evaluator.SwitchRobertaNoTransformers | evaluate.py:23-29 | When `transformers` does not import, switching to roberta succeeds whatever the configuration holds, and every answer is neutral. |
| Evaluator.Tally | evaluate.py:26-30 | The number of correct rows never exceeds the number of rows. |
| Evaluator.CountCorrect | evaluate.py:26-30 | The counting loop computes exactly `Tally`, raising the first prediction error it meets. |
| Evaluator.TallyAtMostLabelled | evaluate.py:26-30 | Only rows coded 0 or 4 can be counted correct. |
| Evaluator.TallyReady | evaluate.py:28-30 | A usable engine counts every row without raising. |
| Evaluator.TallyFallsThrough | evaluate.py:28-30 | An engine that falls through to neutral, for example roberta without a pipeline, scores 0 correct. |
| Evaluator.TallyPrefixFailure | evaluate.py:28-30 | Once a prefix of the rows raises, the whole count raises the same error. |
| Evaluator.Percent | evaluate.py:31 | The accuracy exists exactly when the sample is non-empty, and an empty sample raises `ZeroDivisionError`. The accuracy times the sample size equals `correct * 100`, and it lies in [0, 100]. |
| Evaluator.ScoreModels | evaluate.py:20-31 | Scoring a list of models yields one accuracy per model, in order and in [0, 100]. It keeps the configuration, leaves the last model active, and raises on an empty sample. `Evaluator.ScoreModelsAccuracy` pins each value down. |
| Evaluator.Accuracy | evaluate.py:23-31 | No contract of its own: the reference for one model's score. An engine over the configuration is switched to the name, counts its exact matches over the sample, and reports `correct / n * 100`. |
| Evaluator.SwitchAgree | evaluate.py:23-24 | Switching two engines with the same configuration to the same name fails alike or predicts alike. Nothing the previous model left behind affects the next one. |
| Evaluator.TallyAgree | evaluate.py:26-30 | Two engines that predict alike count the same correct rows, or raise the same error. |
| Evaluator.StepAccuracy | evaluate.py:23-31 | One pass of the outer loop yields the model's `Evaluator.Accuracy`, whatever engine the previous model left: the switch is followed by the count over the sample and `correct / n * 100`, and the first error is kept. |
| Evaluator.ScoreModelsAccuracy | evaluate.py:20-31 | Scoring succeeds exactly when every model's `Evaluator.Accuracy` does. The k-th score is then the k-th name with that model's own accuracy over the same sample: its exact-match count times 100 over the sample size. |
| Evaluator.ScoreModelsPrefixFailure | evaluate.py:20-31 | Once scoring a prefix of the models raises, scoring all of them raises the same error. |
| Evaluator.Evaluate | evaluate.py:16-33 | Every result names vader, textblob and roberta in that order, each with an accuracy in [0, 100]. An empty sample always raises. `Evaluator.EvaluateAccuracy` gives each value. |
| Evaluator.EvaluateAccuracy | evaluate.py:16-33 | Once the engine is built, `run_evaluator` succeeds exactly when each of vader, textblob and roberta can be scored. Each then carries its own `Evaluator.Accuracy` under the loaded configuration. |
| Evaluator.RunEvaluator | evaluate.py:16-33 | The nested loops compute exactly what `Evaluate` specifies, errors included. |
| Evaluator.ScoreModelsComplete | evaluate.py:20-31 | With a complete configuration and a non-empty sample, every model is scored without raising. |
| Evaluator.EvaluateComplete | evaluate.py:18-33 | With a complete settings file and a non-empty sample, `run_evaluator` returns all three accuracies. |
| Evaluator.EvaluateEmptySample | evaluate.py:18-31 | With a complete settings file, an empty sample raises `ZeroDivisionError` at the first accuracy. |
| Evaluator.EvaluateWithoutConfig | evaluate.py:18-33 | Without a settings file, `run_evaluator` raises `KeyError('textblob')` after scoring vader. On an empty sample it raises `ZeroDivisionError` first. |

## Left out

- app.py, api.py and main.py are not part of this model. They hold the HTTP API, the dashboard and the command-line entry point.
- Reading the CSV dataset and `df.sample(sample_size)` (evaluate.py:8-14) are I/O and unseeded randomness. The sampled rows are an input, and `sample_size` is their count. The `ValueError` pandas raises when `sample_size` exceeds the dataset is not modelled.
- `plot_results` and every `print` are output only.
- The internals of VADER, TextBlob and the transformers pipeline are uninterpreted functions in `Models.Scorers`.
- YAML parsing is not modelled: the settings file arrives already parsed. Booleans and lists are both `Yaml.Other`.
- Models.Predict: comparing a score with a boolean threshold raises `TypeError` in the model. Python would compare it as 0 or 1.
- Scores and accuracies are exact reals. Floating-point rounding, for example in `correct / sample_size * 100`, is not modelled.
- Cleaner.Lower: only ASCII letters are mapped. Python's `str.lower` also maps non-ASCII letters, such as the Kelvin sign and `İ`.
- Cleaner.Clean: `str(text)` on a value that is not a string is not modelled. The input is already a `string`.
- Models.InitializeModel: building a pipeline either succeeds or raises `ImportError`. Other exceptions from `pipeline(...)` are not modelled, and neither is the `LookupError` that constructing `SentimentIntensityAnalyzer` raises without the VADER lexicon.
- Models.InitializeModel: an exception leaves the engine unchanged in the model. In Python, some fields may already be assigned by then: `self.active_name` (evaluate.py:23), and in the vader branch `self.model` (models.py:36), which is set before the threshold lookup on models.py:37 can raise. No later step uses the engine after an exception.

=== FILE: cleaner.dfy ===
/**
 * The tweet cleaner of utils.py: lowercase, delete `@handle` mentions, delete
 * `http…` runs, delete everything that is neither a letter nor whitespace, and
 * strip whitespace from both ends. Each stage after lowercasing only deletes.
 */
module Cleaner {
  import opened Subsequence

  /** Whitespace as Python's `str.isspace`, `str.strip()` and the regex class `\s` see it. */
  predicate IsSpace(c: char) {
    || 9 <= c as int <= 13
    || 28 <= c as int <= 32
    || c as int == 0x85 || c as int == 0xA0 || c as int == 0x1680
    || 0x2000 <= c as int <= 0x200A
    || c as int == 0x2028 || c as int == 0x2029 || c as int == 0x202F
    || c as int == 0x205F || c as int == 0x3000
  }

  predicate NotSpace(c: char) {
    !IsSpace(c)
  }

  predicate IsUpper(c: char) {
    'A' <= c <= 'Z'
  }

  predicate NotUpper(c: char) {
    !IsUpper(c)
  }

  predicate IsLower(c: char) {
    'a' <= c <= 'z'
  }

  predicate IsLetter(c: char) {
    IsUpper(c) || IsLower(c)
  }

  predicate IsDigit(c: char) {
    '0' <= c <= '9'
  }

  /** The class `[A-Za-z0-9_]` a mention handle is made of. */
  predicate IsHandleChar(c: char) {
    IsLetter(c) || IsDigit(c) || c == '_'
  }

  /** The characters the class `[^a-zA-Z\s]` leaves alone. */
  predicate IsKept(c: char) {
    IsLetter(c) || IsSpace(c)
  }

  predicate AllSpace(s: string) {
    forall i :: 0 <= i < |s| ==> IsSpace(s[i])
  }

  /** `str.lower()` on one character; only ASCII case mapping is modelled. */
  function ToLower(c: char): (d: char)
    ensures !IsUpper(d)
    ensures IsUpper(c) ==> IsLower(d) && d as int == c as int + 32
    ensures !IsUpper(c) ==> d == c
  {
    if IsUpper(c) then (c as int + 32) as char else c
  }

  function Lower(s: string): (r: string)
    ensures |r| == |s|
    ensures forall i :: 0 <= i < |s| ==> r[i] == ToLower(s[i])
    decreases |s|
  {
    if |s| == 0 then [] else [ToLower(s[0])] + Lower(s[1..])
  }

  /** Length of the longest prefix of `s` whose characters all satisfy `p`: a greedy `+`/`*` run. */
  function Span(s: string, p: char -> bool): (n: nat)
    ensures n <= |s|
    ensures forall i :: 0 <= i < n ==> p(s[i])
    ensures n < |s| ==> !p(s[n])
    decreases |s|
  {
    if |s| > 0 && p(s[0]) then 1 + Span(s[1..], p) else 0
  }

  /** Length of the longest suffix of `s` whose characters all satisfy `p`. */
  function SpanBack(s: string, p: char -> bool): (n: nat)
    ensures n <= |s|
    ensures forall i :: |s| - n <= i < |s| ==> p(s[i])
    ensures n < |s| ==> !p(s[|s| - 1 - n])
    decreases |s|
  {
    if |s| > 0 && p(s[|s| - 1]) then 1 + SpanBack(s[..|s| - 1], p) else 0
  }

  /** The greedy run of a `Span` is determined by its two defining facts. */
  lemma {:induction false} SpanExact(s: string, p: char -> bool, n: nat)
    requires n <= |s|
    requires forall i :: 0 <= i < n ==> p(s[i])
    requires n == |s| || !p(s[n])
    ensures Span(s, p) == n
    decreases n
  {
    if n > 0 {
      SpanExact(s[1..], p, n - 1);
    }
  }

  // ----- Stage 2: `re.sub(r'@[A-Za-z0-9_]+', '', text)` -----

  /** A match of `@[A-Za-z0-9_]+` starts at the front of `s`. */
  predicate MentionAt(s: string) {
    |s| >= 2 && s[0] == '@' && IsHandleChar(s[1])
  }

  predicate MentionFree(s: string) {
    forall i :: 0 <= i < |s| ==> !MentionAt(s[i..])
  }

  /** Leftmost, non-overlapping, greedy deletion of every mention. */
  function StripMentions(s: string): string
    decreases |s|
  {
    if |s| == 0 then []
    else if MentionAt(s) then StripMentions(s[1 + Span(s[1..], IsHandleChar)..])
    else [s[0]] + StripMentions(s[1..])
  }

  lemma {:induction false} StripMentionsSubseq(s: string)
    ensures IsSubseq(StripMentions(s), s)
    decreases |s|
  {
    if |s| == 0 {
    } else if MentionAt(s) {
      var k := 1 + Span(s[1..], IsHandleChar);
      StripMentionsSubseq(s[k..]);
      SubseqDropPrefix(StripMentions(s[k..]), s, k);
    } else {
      StripMentionsSubseq(s[1..]);
      SubseqCons(s[0], StripMentions(s[1..]), s[1..]);
      assert [s[0]] + s[1..] == s;
    }
  }

  /** A handle character at the front of the output was the input's first character. */
  lemma {:induction false} StripMentionsHead(s: string)
    ensures var r := StripMentions(s);
            r != [] && IsHandleChar(r[0]) ==> s != [] && r[0] == s[0]
    decreases |s|
  {
    if |s| > 0 && MentionAt(s) {
      var k := 1 + Span(s[1..], IsHandleChar);
      StripMentionsHead(s[k..]);
    }
  }

  lemma {:induction false} StripMentionsMentionFree(s: string)
    ensures MentionFree(StripMentions(s))
    decreases |s|
  {
    if |s| == 0 {
    } else if MentionAt(s) {
      StripMentionsMentionFree(s[1 + Span(s[1..], IsHandleChar)..]);
    } else {
      var tail := StripMentions(s[1..]);
      var r := [s[0]] + tail;
      StripMentionsMentionFree(s[1..]);
      StripMentionsHead(s[1..]);
      forall i | 0 <= i < |r|
        ensures !MentionAt(r[i..])
      {
        if i == 0 {
          assert |r| >= 2 ==> r[1] == tail[0];
          assert r[0..] == r;
        } else {
          assert r[i..] == tail[i - 1..];
        }
      }
    }
  }

  /** A prefix at none of whose positions a mention starts passes the mention stage unchanged. */
  lemma {:induction false} StripMentionsKeepsPrefix(a: string, b: string)
    requires forall i :: 0 <= i < |a| ==> !MentionAt((a + b)[i..])
    ensures StripMentions(a + b) == a + StripMentions(b)
    decreases |a|
  {
    if |a| > 0 {
      var s := a + b;
      var t := a[1..] + b;
      assert s[0..] == s;
      assert !MentionAt(s);
      assert s[1..] == t;
      forall i | 0 <= i < |a[1..]|
        ensures !MentionAt(t[i..])
      {
        assert t[i..] == s[i + 1..];
      }
      StripMentionsKeepsPrefix(a[1..], b);
      assert StripMentions(s) == [s[0]] + StripMentions(t);
      assert [a[0]] + (a[1..] + StripMentions(b)) == a + StripMentions(b);
    } else {
      assert a + b == b;
    }
  }

  lemma {:induction false} MentionFreeFixpoint(s: string)
    requires MentionFree(s)
    ensures StripMentions(s) == s
    decreases |s|
  {
    if |s| > 0 {
      assert s[0..] == s;
      assert !MentionAt(s);
      assert forall i :: 0 <= i < |s[1..]| ==> s[1..][i..] == s[i + 1..];
      MentionFreeFixpoint(s[1..]);
      assert [s[0]] + s[1..] == s;
    }
  }

  /** The mention stage deletes a subsequence that holds no mention, so it is idempotent. */
  lemma StripMentionsSound(s: string)
    ensures IsSubseq(StripMentions(s), s)
    ensures MentionFree(StripMentions(s))
    ensures StripMentions(StripMentions(s)) == StripMentions(s)
  {
    StripMentionsSubseq(s);
    StripMentionsMentionFree(s);
    MentionFreeFixpoint(StripMentions(s));
  }

  /** `@` followed by a handle is deleted together with the whole handle. */
  lemma StripMentionsRemovesHandle(handle: string, rest: string)
    requires |handle| > 0
    requires forall i :: 0 <= i < |handle| ==> IsHandleChar(handle[i])
    requires rest == [] || !IsHandleChar(rest[0])
    ensures StripMentions(['@'] + handle + rest) == StripMentions(rest)
  {
    var s := ['@'] + handle + rest;
    var tail := handle + rest;
    assert s[1..] == tail;
    assert tail[0] == handle[0];
    assert MentionAt(s);
    forall i | 0 <= i < |handle|
      ensures IsHandleChar(tail[i])
    {
      assert tail[i] == handle[i];
    }
    assert |handle| < |tail| ==> tail[|handle|] == rest[0];
    SpanExact(tail, IsHandleChar, |handle|);
    StripMentionsAtMention(s);
    assert tail[|handle|..] == rest;
  }

  /** One step of the mention stage where a mention starts at the front. */
  lemma StripMentionsAtMention(s: string)
    requires MentionAt(s)
    ensures StripMentions(s) == StripMentions(s[1 + Span(s[1..], IsHandleChar)..])
  {
  }

  // ----- Stage 3: `re.sub(r'http\S+', '', text)` -----

  /** A match of `http\S+` starts at the front of `s`. */
  predicate UrlAt(s: string) {
    |s| >= 5 && s[0] == 'h' && s[1] == 't' && s[2] == 't' && s[3] == 'p' && !IsSpace(s[4])
  }

  predicate UrlFree(s: string) {
    forall i :: 0 <= i < |s| ==> !UrlAt(s[i..])
  }

  /** Leftmost, non-overlapping, greedy deletion of every `http` run up to the next whitespace. */
  function StripUrls(s: string): string
    decreases |s|
  {
    if |s| == 0 then []
    else if UrlAt(s) then StripUrls(s[4 + Span(s[4..], NotSpace)..])
    else [s[0]] + StripUrls(s[1..])
  }

  lemma {:induction false} StripUrlsSubseq(s: string)
    ensures IsSubseq(StripUrls(s), s)
    decreases |s|
  {
    if |s| == 0 {
    } else if UrlAt(s) {
      var k := 4 + Span(s[4..], NotSpace);
      StripUrlsSubseq(s[k..]);
      SubseqDropPrefix(StripUrls(s[k..]), s, k);
    } else {
      StripUrlsSubseq(s[1..]);
      SubseqCons(s[0], StripUrls(s[1..]), s[1..]);
      assert [s[0]] + s[1..] == s;
    }
  }

  /** Right after a deleted URL comes whitespace or the end of the text. */
  lemma StripUrlsAfterUrl(s: string)
    ensures UrlAt(s) ==> StripUrls(s) == [] || IsSpace(StripUrls(s)[0])
  {
    if UrlAt(s) {
      var n := Span(s[4..], NotSpace);
      var t := s[4 + n..];
      if t != [] {
        assert t[0] == s[4..][n];
        assert StripUrls(t) == [t[0]] + StripUrls(t[1..]);
      }
    }
  }

  /** Up to the first whitespace, the output of the URL stage agrees with its input. */
  lemma {:induction false} StripUrlsPrefix(s: string, m: nat)
    requires m <= |StripUrls(s)|
    requires forall i :: 0 <= i < m ==> !IsSpace(StripUrls(s)[i])
    ensures m <= |s| && StripUrls(s)[..m] == s[..m]
    decreases |s|
  {
    if m > 0 {
      StripUrlsAfterUrl(s);
      assert |s| > 0 && !UrlAt(s);
      var r, tail := StripUrls(s), StripUrls(s[1..]);
      assert r == [s[0]] + tail;
      assert forall i :: 0 <= i < m - 1 ==> tail[i] == r[i + 1];
      StripUrlsPrefix(s[1..], m - 1);
      forall i | 0 <= i < m
        ensures r[i] == s[i]
      {
        if i > 0 {
          assert tail[..m - 1][i - 1] == s[1..][..m - 1][i - 1];
        }
      }
    }
  }

  lemma {:induction false} StripUrlsUrlFree(s: string)
    ensures UrlFree(StripUrls(s))
    decreases |s|
  {
    if |s| == 0 {
    } else if UrlAt(s) {
      StripUrlsUrlFree(s[4 + Span(s[4..], NotSpace)..]);
    } else {
      var tail := StripUrls(s[1..]);
      var r := [s[0]] + tail;
      StripUrlsUrlFree(s[1..]);
      forall i | 0 <= i < |r|
        ensures !UrlAt(r[i..])
      {
        if i == 0 {
          assert r[0..] == r;
          if |tail| >= 4 && !IsSpace(tail[0]) && !IsSpace(tail[1]) && !IsSpace(tail[2]) && !IsSpace(tail[3]) {
            StripUrlsPrefix(s[1..], 4);
            assert tail[..4] == s[1..][..4];
            assert r[..5] == s[..5];
            assert r[1] == s[1] && r[2] == s[2] && r[3] == s[3] && r[4] == s[4];
          }
        } else {
          assert r[i..] == tail[i - 1..];
        }
      }
    }
  }

  lemma {:induction false} UrlFreeFixpoint(s: string)
    requires UrlFree(s)
    ensures StripUrls(s) == s
    decreases |s|
  {
    if |s| > 0 {
      assert s[0..] == s;
      assert !UrlAt(s);
      assert forall i :: 0 <= i < |s[1..]| ==> s[1..][i..] == s[i + 1..];
      UrlFreeFixpoint(s[1..]);
      assert [s[0]] + s[1..] == s;
    }
  }

  /** The URL stage deletes a subsequence that holds no URL, so it is idempotent. */
  lemma StripUrlsSound(s: string)
    ensures IsSubseq(StripUrls(s), s)
    ensures UrlFree(StripUrls(s))
    ensures StripUrls(StripUrls(s)) == StripUrls(s)
  {
    StripUrlsSubseq(s);
    StripUrlsUrlFree(s);
    UrlFreeFixpoint(StripUrls(s));
  }

  /**
   * A mention after text in which no mention starts is deleted with its whole handle,
   * and the text before it is kept: `hi @bob there` becomes `hi  there`.
   */
  lemma StripMentionsRemovesInner(a: string, handle: string, rest: string)
    requires forall i :: 0 <= i < |a| ==> !MentionAt((a + (['@'] + handle + rest))[i..])
    requires |handle| > 0
    requires forall i :: 0 <= i < |handle| ==> IsHandleChar(handle[i])
    requires rest == [] || !IsHandleChar(rest[0])
    ensures StripMentions(a + (['@'] + handle + rest)) == a + StripMentions(rest)
  {
    StripMentionsKeepsPrefix(a, ['@'] + handle + rest);
    StripMentionsRemovesHandle(handle, rest);
  }

  /** `http` followed by a non-empty run of non-whitespace is deleted up to the next whitespace. */
  lemma StripUrlsRemovesUrl(run: string, rest: string)
    requires |run| > 0
    requires forall i :: 0 <= i < |run| ==> !IsSpace(run[i])
    requires rest == [] || IsSpace(rest[0])
    ensures StripUrls("http" + run + rest) == StripUrls(rest)
  {
    var s := "http" + run + rest;
    var tail := run + rest;
    assert s[4..] == tail;
    assert !IsSpace(tail[0]);
    assert UrlAt(s);
    StripUrlsSkipsRun(s, run, rest);
  }

  /** A URL at the front whose non-whitespace run is exactly `run` is skipped, leaving `rest`. */
  lemma StripUrlsSkipsRun(s: string, run: string, rest: string)
    requires UrlAt(s) && s[4..] == run + rest
    requires forall i :: 0 <= i < |run| ==> !IsSpace(run[i])
    requires rest == [] || IsSpace(rest[0])
    ensures StripUrls(s) == StripUrls(rest)
  {
    var tail := run + rest;
    StripUrlsAtUrl(s);
    SpanExact(tail, NotSpace, |run|);
    assert tail[|run|..] == rest;
  }

  /** One step of the URL stage where a URL starts at the front. */
  lemma StripUrlsAtUrl(s: string)
    requires UrlAt(s)
    ensures StripUrls(s) == StripUrls(s[4 + Span(s[4..], NotSpace)..])
  {
  }

  /** One step of the URL stage where no URL starts at the front. */
  lemma StripUrlsKeepsHead(c: char, t: string)
    requires !UrlAt([c] + t)
    ensures StripUrls([c] + t) == [c] + StripUrls(t)
  {
    assert ([c] + t)[1..] == t;
  }

  /** A bare `http` followed by whitespace survives the URL stage. */
  lemma StripUrlsKeepsBareHttp(space: char, rest: string)
    requires IsSpace(space)
    ensures StripUrls("http" + [space] + rest) == "http" + [space] + StripUrls(rest)
  {
    var t4 := [space] + rest;
    var t3 := ['p'] + t4;
    var t2 := ['t'] + t3;
    var t1 := ['t'] + t2;
    assert "http" + [space] + rest == ['h'] + t1;
    StripUrlsKeepsHead(space, rest);
    StripUrlsKeepsHead('p', t4);
    StripUrlsKeepsHead('t', t3);
    StripUrlsKeepsHead('t', t2);
    assert (['h'] + t1)[4] == space;
    StripUrlsKeepsHead('h', t1);
    assert "http" + [space] + StripUrls(rest) == ['h'] + (['t'] + (['t'] + (['p'] + ([space] + StripUrls(rest)))));
  }

  // ----- Stage 4: `re.sub(r'[^a-zA-Z\s]', '', text)` -----

  function DropSpecials(s: string): string
    decreases |s|
  {
    if |s| == 0 then []
    else if IsKept(s[0]) then [s[0]] + DropSpecials(s[1..])
    else DropSpecials(s[1..])
  }

  /**
   * The special-character stage keeps exactly the letters and whitespace of its input,
   * in order and with their multiplicities.
   */
  lemma {:induction false} DropSpecialsSound(s: string)
    ensures IsSubseq(DropSpecials(s), s)
    ensures forall i :: 0 <= i < |DropSpecials(s)| ==> IsKept(DropSpecials(s)[i])
    ensures forall c :: multiset(DropSpecials(s))[c] == if IsKept(c) then multiset(s)[c] else 0
    decreases |s|
  {
    DropSpecialsKept(s);
    DropSpecialsCounts(s);
  }

  lemma {:induction false} DropSpecialsKept(s: string)
    ensures IsSubseq(DropSpecials(s), s)
    ensures forall i :: 0 <= i < |DropSpecials(s)| ==> IsKept(DropSpecials(s)[i])
    decreases |s|
  {
    if |s| > 0 {
      var tail := DropSpecials(s[1..]);
      DropSpecialsKept(s[1..]);
      assert s == [s[0]] + s[1..];
      if IsKept(s[0]) {
        SubseqCons(s[0], tail, s[1..]);
      } else {
        assert IsSubseq(tail, s[1..]);
      }
    }
  }

  lemma {:induction false} DropSpecialsCounts(s: string)
    ensures forall c :: multiset(DropSpecials(s))[c] == if IsKept(c) then multiset(s)[c] else 0
    decreases |s|
  {
    if |s| > 0 {
      var tail := DropSpecials(s[1..]);
      DropSpecialsCounts(s[1..]);
      assert s == [s[0]] + s[1..];
      assert multiset(s) == multiset{s[0]} + multiset(s[1..]);
      if IsKept(s[0]) {
        assert multiset([s[0]] + tail) == multiset{s[0]} + multiset(tail);
      }
    }
  }

  /** Text made only of letters and whitespace passes the special-character stage unchanged. */
  lemma {:induction false} DropSpecialsUnchanged(s: string)
    requires forall i :: 0 <= i < |s| ==> IsKept(s[i])
    ensures DropSpecials(s) == s
    decreases |s|
  {
    if |s| > 0 {
      DropSpecialsUnchanged(s[1..]);
      assert [s[0]] + s[1..] == s;
    }
  }

  // ----- Stage 5: `text.strip()` -----

  /**
   * Removes leading and trailing whitespace: the result is the one slice of `s` with
   * whitespace-only margins that does not begin or end with whitespace. Inner runs stay as they are.
   */
  function Strip(s: string): (r: string)
    ensures IsSubseq(r, s)
    ensures r == [] <==> AllSpace(s)
    ensures r != [] ==> !IsSpace(r[0]) && !IsSpace(r[|r| - 1])
    ensures exists lo :: 0 <= lo <= |s| - |r| && r == s[lo..lo + |r|] && AllSpace(s[..lo]) && AllSpace(s[lo + |r|..])
  {
    var lo := Span(s, IsSpace);
    if lo == |s| then
      StripBlank(s);
      []
    else
      var hi := |s| - SpanBack(s, IsSpace);
      StripSlice(s, lo, hi);
      s[lo..hi]
  }

  /** When `s` is all whitespace, the empty slice at its end has whitespace-only margins. */
  lemma StripBlank(s: string)
    requires AllSpace(s)
    ensures IsSubseq([], s)
    ensures AllSpace(s[..|s|]) && AllSpace(s[|s|..])
  {
    SubseqNil(s);
    assert s[..|s|] == s;
  }

  /** The slice between the whitespace margins found by `Span` and `SpanBack` has the properties `Strip` promises. */
  lemma StripSlice(s: string, lo: nat, hi: nat)
    requires lo < |s| && hi <= |s|
    requires forall i :: 0 <= i < lo ==> IsSpace(s[i])
    requires !IsSpace(s[lo])
    requires forall i :: hi <= i < |s| ==> IsSpace(s[i])
    requires hi > 0 ==> !IsSpace(s[hi - 1])
    ensures lo < hi
    ensures IsSubseq(s[lo..hi], s)
    ensures !AllSpace(s) && s[lo..hi] != []
    ensures !IsSpace(s[lo..hi][0]) && !IsSpace(s[lo..hi][|s[lo..hi]| - 1])
    ensures var r := s[lo..hi];
      0 <= lo <= |s| - |r| && r == s[lo..lo + |r|] && AllSpace(s[..lo]) && AllSpace(s[lo + |r|..])
  {
    assert lo < hi;
    SliceSubseq(s, lo, hi);
    assert s[lo..hi][0] == s[lo];
  }

  /** utils.py `clean_tweet`. */
  function Clean(s: string): string {
    Strip(DropSpecials(StripUrls(StripMentions(Lower(s)))))
  }

  /**
   * The cleaned text holds only letters and whitespace, no upper-case letter, no whitespace
   * at either end, and is a subsequence of the lower-cased input.
   */
  lemma CleanSound(s: string)
    ensures var r := Clean(s);
      && (forall i :: 0 <= i < |r| ==> IsKept(r[i]) && !IsUpper(r[i]))
      && (r != [] ==> !IsSpace(r[0]) && !IsSpace(r[|r| - 1]))
      && IsSubseq(r, Lower(s))
      && |r| <= |s|
  {
    var lowered := Lower(s);
    var letters := DropSpecials(StripUrls(StripMentions(lowered)));
    var r := Clean(s);
    CleanSubseq(s);
    SubseqLength(r, lowered);
    DropSpecialsKept(StripUrls(StripMentions(lowered)));
    SubseqAll(r, letters, IsKept);
    assert forall j :: 0 <= j < |lowered| ==> NotUpper(lowered[j]);
    SubseqAll(r, lowered, NotUpper);
  }

  lemma CleanSubseq(s: string)
    ensures IsSubseq(Clean(s), DropSpecials(StripUrls(StripMentions(Lower(s)))))
    ensures IsSubseq(Clean(s), Lower(s))
  {
    var lowered := Lower(s);
    var noMentions := StripMentions(lowered);
    var noUrls := StripUrls(noMentions);
    var letters := DropSpecials(noUrls);
    StripMentionsSubseq(lowered);
    StripUrlsSubseq(noMentions);
    DropSpecialsKept(noUrls);
    SubseqTrans(noUrls, noMentions, lowered);
    SubseqTrans(letters, noUrls, lowered);
    SubseqTrans(Clean(s), letters, lowered);
  }

  /** Empty or whitespace-only text cleans to the empty string. */
  lemma CleanBlank(s: string)
    requires AllSpace(s)
    ensures Clean(s) == ""
  {
    var r := Clean(s);
    CleanSound(s);
    SubseqElements(r, Lower(s));
  }

  /** `Lower` is the only text that agrees with `ToLower` at every position. */
  lemma LowerAgree(s: string, t: string)
    requires |s| == |t| && forall i :: 0 <= i < |s| ==> ToLower(s[i]) == t[i]
    ensures Lower(s) == t
  {
  }

  lemma NoAtMentionFree(s: string)
    requires '@' !in s
    ensures MentionFree(s)
  {
    forall i | 0 <= i < |s|
      ensures !MentionAt(s[i..])
    {
      assert s[i..][0] == s[i];
    }
  }

  /** A prefix at none of whose positions a URL starts passes the URL stage unchanged. */
  lemma {:induction false} StripUrlsKeepsPrefix(a: string, b: string)
    requires forall i :: 0 <= i < |a| ==> !UrlAt((a + b)[i..])
    ensures StripUrls(a + b) == a + StripUrls(b)
    decreases |a|
  {
    if |a| > 0 {
      var s := a + b;
      var t := a[1..] + b;
      assert s[0..] == s;
      assert s == [a[0]] + t;
      forall i | 0 <= i < |a[1..]|
        ensures !UrlAt(t[i..])
      {
        assert t[i..] == s[i + 1..];
      }
      StripUrlsKeepsPrefix(a[1..], b);
      StripUrlsKeepsHead(a[0], t);
      assert [a[0]] + (a[1..] + StripUrls(b)) == a + StripUrls(b);
    } else {
      assert a + b == b;
    }
  }

  lemma {:induction false} DropSpecialsAppend(a: string, b: string)
    ensures DropSpecials(a + b) == DropSpecials(a) + DropSpecials(b)
    decreases |a|
  {
    if |a| > 0 {
      assert (a + b)[1..] == a[1..] + b;
      DropSpecialsAppend(a[1..], b);
    } else {
      assert a + b == b;
    }
  }

  lemma ExampleLower(s: string, t: string)
    requires s == "@bob check http://x.com THIS!!"
    requires t == "@bob check http://x.com this!!"
    ensures Lower(s) == t
  {
    LowerAgree(s, t);
  }

  lemma ExampleHandle(rest: string)
    requires rest == " check http://x.com this!!"
    ensures StripMentions(['@'] + "bob" + rest) == StripMentions(rest)
  {
    StripMentionsRemovesHandle("bob", rest);
  }

  lemma ExampleNoMoreMentions(rest: string)
    requires rest == " check http://x.com this!!"
    ensures StripMentions(rest) == rest
  {
    assert forall i :: 0 <= i < |rest| ==> rest[i] != '@';
    NoAtMentionFree(rest);
    MentionFreeFixpoint(rest);
  }

  lemma ExampleMentions(s: string)
    requires s == "@bob check http://x.com this!!"
    ensures StripMentions(s) == " check http://x.com this!!"
  {
    var rest := " check http://x.com this!!";
    assert s == ['@'] + "bob" + rest;
    ExampleHandle(rest);
    ExampleNoMoreMentions(rest);
  }

  /** `re.sub` keeps the text before a mention: `hi @bob` becomes `hi `. */
  lemma ExampleInnerMention(s: string)
    requires s == "hi @bob"
    ensures StripMentions(s) == "hi "
  {
    var a, handle, rest := "hi ", "bob", "";
    assert s == a + (['@'] + handle + rest);
    var t := a + (['@'] + handle + rest);
    assert !MentionAt(t[0..]) && !MentionAt(t[1..]) && !MentionAt(t[2..]);
    StripMentionsRemovesInner(a, handle, rest);
  }

  lemma ExampleUrlsPrefix(s: string, pre: string, rest: string)
    requires pre == " check " && rest == "http://x.com this!!" && s == pre + rest
    ensures StripUrls(s) == pre + StripUrls(rest)
  {
    assert forall i :: 0 <= i < |pre| ==> !UrlAt((pre + rest)[i..]);
    StripUrlsKeepsPrefix(pre, rest);
  }

  lemma ExampleUrlsRun(rest: string, tail: string)
    requires rest == "http://x.com this!!" && tail == " this!!"
    ensures StripUrls(rest) == tail
  {
    var run := "://x.com";
    assert forall i :: 0 <= i < |run| ==> !IsSpace(run[i]);
    assert rest == "http" + run + tail;
    StripUrlsRemovesUrl(run, tail);
    assert UrlFree(tail);
    UrlFreeFixpoint(tail);
  }

  lemma ExampleUrls(s: string)
    requires s == " check http://x.com this!!"
    ensures StripUrls(s) == " check  this!!"
  {
    var pre, rest, tail := " check ", "http://x.com this!!", " this!!";
    assert s == pre + rest;
    assert pre + tail == " check  this!!";
    ExampleUrlsPrefix(s, pre, rest);
    ExampleUrlsRun(rest, tail);
  }

  lemma ExampleMarks(marks: string)
    requires marks == "!!"
    ensures DropSpecials(marks) == ""
  {
    assert !IsKept(marks[0]) && !IsKept(marks[1]);
    assert DropSpecials(marks) == DropSpecials(marks[1..]);
    assert DropSpecials(marks[1..]) == DropSpecials(marks[1..][1..]);
    assert marks[1..][1..] == [];
  }

  lemma ExampleWords(kept: string)
    requires kept == " check  this"
    ensures DropSpecials(kept) == kept
  {
    assert forall i :: 0 <= i < |kept| ==> IsKept(kept[i]);
    DropSpecialsUnchanged(kept);
  }

  lemma ExampleSpecials(s: string)
    requires s == " check  this!!"
    ensures DropSpecials(s) == " check  this"
  {
    var kept, marks := " check  this", "!!";
    assert s == kept + marks;
    DropSpecialsAppend(kept, marks);
    ExampleMarks(marks);
    ExampleWords(kept);
  }

  lemma ExampleStrip(s: string)
    requires s == " check  this"
    ensures Strip(s) == "check  this"
  {
    SpanExact(s, IsSpace, 1);
  }

  /** Mentions and URLs go, case is folded, punctuation goes, and the inner double space stays. */
  lemma CleanExample(tweet: string)
    requires tweet == "@bob check http://x.com THIS!!"
    ensures Clean(tweet) == "check  this"
  {
    ExampleLower(tweet, "@bob check http://x.com this!!");
    ExampleMentions(Lower(tweet));
    ExampleUrls(StripMentions(Lower(tweet)));
    ExampleSpecials(StripUrls(StripMentions(Lower(tweet))));
    ExampleStrip(DropSpecials(StripUrls(StripMentions(Lower(tweet)))));
  }

  lemma DotSurvivesDeletions(s: string)
    requires s == "ht.tpx"
    ensures StripUrls(StripMentions(Lower(s))) == s
  {
    assert Lower("ht.tpx") == "ht.tpx";
    assert StripMentions("ht.tpx") == "ht.tpx";
    assert StripUrls("ht.tpx") == "ht.tpx";
  }

  lemma DotDropped(s: string)
    requires s == "ht.tpx"
    ensures DropSpecials(s) == "httpx"
  {
    assert DropSpecials("ht.tpx") == "httpx";
  }

  lemma DotExample(s: string)
    requires s == "ht.tpx"
    ensures Clean(s) == "httpx"
  {
    DotSurvivesDeletions(s);
    DotDropped(s);
    var t := "httpx";
    SpanExact(t, IsSpace, 0);
    assert SpanBack(t, IsSpace) == 0;
  }

  lemma BareUrlExample(s: string)
    requires s == "httpx"
    ensures Clean(s) == ""
  {
    assert Lower("httpx") == "httpx";
    assert StripMentions("httpx") == "httpx";
    assert StripUrls("httpx") == "";
  }

  /** Deleting the `.` of `ht.tpx` creates a URL that a second pass deletes: cleaning is not idempotent. */
  lemma CleanNotIdempotent(s: string)
    requires s == "ht.tpx"
    ensures Clean(s) == "httpx"
    ensures Clean(Clean(s)) == ""
  {
    DotExample(s);
    BareUrlExample(Clean(s));
  }
}

=== FILE: evaluate.dfy ===
/**
 * The accuracy loop of evaluate.py `run_evaluator`: map label codes to labels,
 * then for vader, textblob and roberta in turn switch the engine to that model,
 * count the exact matches over one sample, and report `correct / n * 100`.
 * Reading the CSV and drawing the sample are left to the caller: the sample is
 * an input, and `sample_size` is its length.
 */
module Evaluator {
  import opened Wrappers
  import opened Exceptions
  import opened Models

  /** One sampled dataset row: its label code and its raw text. */
  datatype Row = Row(target: int, text: string)

  /** One entry of the returned dictionary. */
  datatype ModelScore = ModelScore(name: string, accuracy: real)

  /** The keys of `results`, in the order they are scored. */
  const ModelNames: seq<string> := [VaderName, TextBlobName, RobertaName]

  /** `df['target'].map({4: 'positive', 0: 'negative'})`; other codes map to NaN, modelled as `None`. */
  function ActualLabel(target: int): (r: Option<Sentiment>)
    ensures r == Some(Positive) <==> target == 4
    ensures r == Some(Negative) <==> target == 0
    ensures r == None <==> target != 0 && target != 4
  {
    if target == 4 then Some(Positive)
    else if target == 0 then Some(Negative)
    else None
  }

  /** `engine.predict(row['text']) == row['actual']`. */
  predicate IsCorrect(p: Sentiment, row: Row) {
    ActualLabel(row.target) == Some(p)
  }

  /** A neutral prediction never counts, and neither does a row whose code is not 0 or 4. */
  lemma NeverCorrect(p: Sentiment, row: Row)
    ensures p == Neutral ==> !IsCorrect(p, row)
    ensures row.target != 0 && row.target != 4 ==> !IsCorrect(p, row)
  {
  }

  /** evaluate.py lines 23-24: set `active_name`, then re-initialise the engine for it. */
  function Switch(e: Engine, name: string, rt: Runtime): (r: Result<Engine, Error>)
    ensures r.Success? ==> r.value.activeName == Str(name) && r.value.config == e.config
  {
    InitializeModel(e.(activeName := Str(name)), Str(name), rt)
  }

  /** The number of correct predictions over `rows`, front to back; the first prediction that raises aborts. */
  function Tally(e: Engine, sc: Scorers, rows: seq<Row>): (r: Result<nat, Error>)
    ensures r.Success? ==> r.value <= |rows|
    decreases |rows|
  {
    if |rows| == 0 then Success(0)
    else
      var c :- Tally(e, sc, rows[..|rows| - 1]);
      var p :- Predict(e, sc, rows[|rows| - 1].text);
      Success(if IsCorrect(p, rows[|rows| - 1]) then c + 1 else c)
  }

  /** The number of rows whose code has a label. */
  function Labelled(rows: seq<Row>): nat
    decreases |rows|
  {
    if |rows| == 0 then 0
    else Labelled(rows[..|rows| - 1]) + (if ActualLabel(rows[|rows| - 1].target).Some? then 1 else 0)
  }

  /** Only rows coded 0 or 4 can be counted correct. */
  lemma {:induction false} TallyAtMostLabelled(e: Engine, sc: Scorers, rows: seq<Row>)
    ensures Tally(e, sc, rows).Success? ==> Tally(e, sc, rows).value <= Labelled(rows)
    decreases |rows|
  {
    if |rows| > 0 {
      TallyAtMostLabelled(e, sc, rows[..|rows| - 1]);
    }
  }

  /** A usable engine scores every row without raising. */
  lemma {:induction false} TallyReady(e: Engine, sc: Scorers, rows: seq<Row>)
    requires Ready(e)
    ensures Tally(e, sc, rows).Success?
    decreases |rows|
  {
    if |rows| > 0 {
      TallyReady(e, sc, rows[..|rows| - 1]);
    }
  }

  /** An engine that falls through to neutral, roberta without a pipeline included, gets nothing right. */
  lemma {:induction false} TallyFallsThrough(e: Engine, sc: Scorers, rows: seq<Row>)
    requires FallsThrough(e)
    ensures Tally(e, sc, rows) == Success(0)
    decreases |rows|
  {
    if |rows| > 0 {
      TallyFallsThrough(e, sc, rows[..|rows| - 1]);
    }
  }

  /** Once a prefix of the rows raises, the whole tally raises the same error. */
  lemma {:induction false} TallyPrefixFailure(e: Engine, sc: Scorers, rows: seq<Row>, i: nat)
    requires i <= |rows|
    requires Tally(e, sc, rows[..i]).Failure?
    ensures Tally(e, sc, rows) == Tally(e, sc, rows[..i])
    decreases |rows| - i
  {
    if i < |rows| {
      assert rows[..i + 1][..i] == rows[..i];
      TallyPrefixFailure(e, sc, rows, i + 1);
    } else {
      assert rows[..i] == rows;
    }
  }

  /**
   * Switching to vader with a numeric threshold `t` in the configuration gives an engine that
   * answers positive exactly when the compound score reaches `t`.
   */
  lemma SwitchVaderRule(e: Engine, sc: Scorers, rt: Runtime, text: string, t: real)
    requires Lookup(e.config, VaderThresholdPath) == Success(Num(t))
    ensures Switch(e, VaderName, rt).Success?
    ensures Predict(Switch(e, VaderName, rt).value, sc, text) == Success(Positive) <==> sc.compound(text) >= t
    ensures Predict(Switch(e, VaderName, rt).value, sc, text) == Success(Negative) <==> sc.compound(text) < t
  {
  }

  /**
   * Switching to textblob with a numeric `polarity_threshold` `t` in the configuration gives an
   * engine that answers positive exactly when the polarity is strictly above `t`.
   */
  lemma SwitchTextBlobRule(e: Engine, sc: Scorers, rt: Runtime, text: string, t: real)
    requires Lookup(e.config, TextBlobThresholdPath) == Success(Num(t))
    ensures Switch(e, TextBlobName, rt).Success?
    ensures Predict(Switch(e, TextBlobName, rt).value, sc, text) == Success(Positive) <==> sc.polarity(text) > t
    ensures Predict(Switch(e, TextBlobName, rt).value, sc, text) == Success(Negative) <==> sc.polarity(text) <= t
  {
  }

  /**
   * Switching to roberta when `transformers` imports and the configured model loads gives an
   * engine that answers positive exactly when that model's top label is `LABEL_2`; when the
   * model does not load, or `transformers` does not import, every answer is neutral.
   */
  lemma SwitchRobertaRule(e: Engine, sc: Scorers, rt: Runtime, text: string, id: Yaml)
    requires Lookup(e.config, RobertaModelPath) == Success(id)
    ensures Switch(e, RobertaName, rt).Success?
    ensures rt.transformersImports && rt.pipelineLoads(id) ==>
      (Predict(Switch(e, RobertaName, rt).value, sc, text) == Success(Positive) <==> sc.topLabel(id, text) == PositiveLabel)
    ensures !rt.transformersImports || !rt.pipelineLoads(id) ==>
      Predict(Switch(e, RobertaName, rt).value, sc, text) == Success(Neutral)
  {
  }

  /** When `transformers` does not import, switching to roberta never reads the configuration and every answer is neutral. */
  lemma SwitchRobertaNoTransformers(e: Engine, sc: Scorers, rt: Runtime, text: string)
    requires !rt.transformersImports
    ensures Switch(e, RobertaName, rt).Success?
    ensures Predict(Switch(e, RobertaName, rt).value, sc, text) == Success(Neutral)
  {
  }

  /** `(correct / sample_size) * 100`; an empty sample divides by zero. */
  function Percent(correct: nat, n: nat): (r: Result<real, Error>)
    ensures r.Success? <==> n != 0
    ensures n == 0 ==> r == Failure(ZeroDivisionError)
    ensures r.Success? ==> r.value * (n as real) == (correct as real) * 100.0
    ensures r.Success? && correct <= n ==> 0.0 <= r.value <= 100.0
  {
    if n == 0 then Failure(ZeroDivisionError)
    else Success((correct as real / n as real) * 100.0)
  }

  /** Every accuracy names its model, in order, and lies in [0, 100]. */
  predicate WellFormed(scores: seq<ModelScore>, names: seq<string>) {
    && |scores| == |names|
    && forall k :: 0 <= k < |scores| ==> scores[k].name == names[k] && 0.0 <= scores[k].accuracy <= 100.0
  }

  /**
   * The outer loop over `names`: each model in turn is switched to, re-initialised, and scored
   * over the same sample; the engine carries over from one model to the next.
   */
  function ScoreModels(e: Engine, sc: Scorers, rt: Runtime, sample: seq<Row>, names: seq<string>)
    : (r: Result<(Engine, seq<ModelScore>), Error>)
    ensures r.Success? ==> WellFormed(r.value.1, names) && r.value.0.config == e.config
    ensures r.Success? && |names| > 0 ==> r.value.0.activeName == Str(names[|names| - 1])
    ensures |names| > 0 && |sample| == 0 ==> r.Failure?
    decreases |names|
  {
    if |names| == 0 then Success((e, []))
    else
      var done :- ScoreModels(e, sc, rt, sample, names[..|names| - 1]);
      var name := names[|names| - 1];
      var next :- Switch(done.0, name, rt);
      var correct :- Tally(next, sc, sample);
      var accuracy :- Percent(correct, |sample|);
      Success((next, done.1 + [ModelScore(name, accuracy)]))
  }

  /**
   * One model's accuracy on its own: an engine over `config` is switched to `name`, predicts
   * every row of the sample, and its exact matches become a percentage.
   */
  function Accuracy(config: Yaml, sc: Scorers, rt: Runtime, sample: seq<Row>, name: string): Result<real, Error> {
    var en :- Switch(Engine(config, Str(name), NoHandle, Num(0.0)), name, rt);
    var correct :- Tally(en, sc, sample);
    Percent(correct, |sample|)
  }

  /** Switching two engines with the same configuration to the same name gives the same answers: nothing carries over from the model before. */
  lemma SwitchAgree(e1: Engine, e2: Engine, name: string, rt: Runtime, sc: Scorers, text: string)
    requires e1.config == e2.config
    ensures Switch(e1, name, rt).Success? <==> Switch(e2, name, rt).Success?
    ensures Switch(e1, name, rt).Failure? ==> Switch(e1, name, rt).error == Switch(e2, name, rt).error
    ensures Switch(e1, name, rt).Success? ==>
      Predict(Switch(e1, name, rt).value, sc, text) == Predict(Switch(e2, name, rt).value, sc, text)
  {
  }

  /** Two engines that answer alike score alike. */
  lemma {:induction false} TallyAgree(e1: Engine, e2: Engine, sc: Scorers, rows: seq<Row>)
    requires forall text :: Predict(e1, sc, text) == Predict(e2, sc, text)
    ensures Tally(e1, sc, rows) == Tally(e2, sc, rows)
    decreases |rows|
  {
    if |rows| > 0 {
      TallyAgree(e1, e2, sc, rows[..|rows| - 1]);
    }
  }

  /** One step of the outer loop, from whatever engine the previous model left, yields that model's own `Accuracy`. */
  lemma StepAccuracy(e: Engine, sc: Scorers, rt: Runtime, sample: seq<Row>, name: string)
    ensures Switch(e, name, rt).Failure? ==>
      Accuracy(e.config, sc, rt, sample, name) == Failure(Switch(e, name, rt).error)
    ensures Switch(e, name, rt).Success? ==>
      var c := Tally(Switch(e, name, rt).value, sc, sample);
      && (c.Failure? ==> Accuracy(e.config, sc, rt, sample, name) == Failure(c.error))
      && (c.Success? ==> Accuracy(e.config, sc, rt, sample, name) == Percent(c.value, |sample|))
  {
    var blank := Engine(e.config, Str(name), NoHandle, Num(0.0));
    forall text | true
      ensures Switch(e, name, rt).Success? ==>
        Predict(Switch(e, name, rt).value, sc, text) == Predict(Switch(blank, name, rt).value, sc, text)
    {
      SwitchAgree(e, blank, name, rt, sc, text);
    }
    SwitchAgree(e, blank, name, rt, sc, []);
    if Switch(e, name, rt).Success? {
      TallyAgree(Switch(e, name, rt).value, Switch(blank, name, rt).value, sc, sample);
    }
  }

  /**
   * The outer loop scores each model as `Accuracy` does on its own, over the same sample:
   * it succeeds exactly when every model's accuracy does, and the k-th score is the k-th model's.
   */
  lemma {:induction false} ScoreModelsAccuracy(e: Engine, sc: Scorers, rt: Runtime, sample: seq<Row>, names: seq<string>)
    ensures ScoreModels(e, sc, rt, sample, names).Success? <==>
      forall k :: 0 <= k < |names| ==> Accuracy(e.config, sc, rt, sample, names[k]).Success?
    ensures ScoreModels(e, sc, rt, sample, names).Success? ==>
      forall k :: 0 <= k < |names| ==>
        ScoreModels(e, sc, rt, sample, names).value.1[k] == ModelScore(names[k], Accuracy(e.config, sc, rt, sample, names[k]).value)
    decreases |names|
  {
    if |names| > 0 {
      var front := names[..|names| - 1];
      var name := names[|names| - 1];
      ScoreModelsAccuracy(e, sc, rt, sample, front);
      assert forall k :: 0 <= k < |front| ==> front[k] == names[k];
      var prev := ScoreModels(e, sc, rt, sample, front);
      if prev.Success? {
        StepAccuracy(prev.value.0, sc, rt, sample, name);
        var r := ScoreModels(e, sc, rt, sample, names);
        assert r.Success? <==> Accuracy(e.config, sc, rt, sample, name).Success?;
        if r.Success? {
          assert r.value.1 == prev.value.1 + [ModelScore(name, Accuracy(e.config, sc, rt, sample, name).value)];
          forall k | 0 <= k < |names|
            ensures r.value.1[k] == ModelScore(names[k], Accuracy(e.config, sc, rt, sample, names[k]).value)
          {
            if k < |front| {
              assert names[k] == front[k];
            }
          }
        }
      } else {
        var k :| 0 <= k < |front| && !Accuracy(e.config, sc, rt, sample, front[k]).Success?;
        assert names[k] == front[k];
      }
    }
  }

  lemma {:induction false} ScoreModelsPrefixFailure(e: Engine, sc: Scorers, rt: Runtime, sample: seq<Row>, names: seq<string>, k: nat)
    requires k <= |names|
    requires ScoreModels(e, sc, rt, sample, names[..k]).Failure?
    ensures ScoreModels(e, sc, rt, sample, names) == ScoreModels(e, sc, rt, sample, names[..k])
    decreases |names| - k
  {
    if k < |names| {
      assert names[..k + 1][..k] == names[..k];
      ScoreModelsPrefixFailure(e, sc, rt, sample, names, k + 1);
    } else {
      assert names[..k] == names;
    }
  }

  /** `run_evaluator`: the engine is built once, then every model is scored over the same sample. */
  function Evaluate(file: Option<Yaml>, rt: Runtime, sc: Scorers, sample: seq<Row>): (r: Result<seq<ModelScore>, Error>)
    ensures r.Success? ==> WellFormed(r.value, ModelNames)
    ensures |sample| == 0 ==> r.Failure?
  {
    var engine :- New(file, rt);
    var scored :- ScoreModels(engine, sc, rt, sample, ModelNames);
    Success(scored.1)
  }

  /**
   * `run_evaluator` returns, for vader, textblob and roberta in that order, the accuracy that model
   * gets on its own over the whole sample, with the loaded configuration.
   */
  lemma EvaluateAccuracy(file: Option<Yaml>, rt: Runtime, sc: Scorers, sample: seq<Row>)
    ensures New(file, rt).Success? ==>
      (Evaluate(file, rt, sc, sample).Success? <==>
        forall k :: 0 <= k < |ModelNames| ==> Accuracy(LoadConfig(file), sc, rt, sample, ModelNames[k]).Success?)
    ensures Evaluate(file, rt, sc, sample).Success? ==>
      forall k :: 0 <= k < |ModelNames| ==>
        Evaluate(file, rt, sc, sample).value[k] == ModelScore(ModelNames[k], Accuracy(LoadConfig(file), sc, rt, sample, ModelNames[k]).value)
  {
    if New(file, rt).Success? {
      ScoreModelsAccuracy(New(file, rt).value, sc, rt, sample, ModelNames);
    }
  }

  /** The inner loop of `run_evaluator`: counts the rows the engine labels correctly. */
  method CountCorrect(engine: Engine, sc: Scorers, sample: seq<Row>) returns (r: Result<nat, Error>)
    ensures r == Tally(engine, sc, sample)
    ensures r.Success? ==> r.value <= |sample|
  {
    var correct := 0;
    var i := 0;
    while i < |sample|
      invariant 0 <= i <= |sample|
      invariant Tally(engine, sc, sample[..i]) == Success(correct)
    {
      assert sample[..i + 1][..i] == sample[..i];
      var p := Predict(engine, sc, sample[i].text);
      if p.Failure? {
        TallyPrefixFailure(engine, sc, sample, i + 1);
        return Failure(p.error);
      }
      if IsCorrect(p.value, sample[i]) {
        correct := correct + 1;
      }
      i := i + 1;
    }
    assert sample[..i] == sample;
    return Success(correct);
  }

  /** The outer loop's step from `names[..k]` to `names[..k + 1]`. */
  lemma ScoreModelsStep(e: Engine, sc: Scorers, rt: Runtime, sample: seq<Row>, names: seq<string>, k: nat,
                        done: (Engine, seq<ModelScore>))
    requires k < |names|
    requires ScoreModels(e, sc, rt, sample, names[..k]) == Success(done)
    ensures ScoreModels(e, sc, rt, sample, names[..k + 1]) ==
      var next :- Switch(done.0, names[k], rt);
      var correct :- Tally(next, sc, sample);
      var accuracy :- Percent(correct, |sample|);
      Success((next, done.1 + [ModelScore(names[k], accuracy)]))
  {
    assert names[..k + 1][..k] == names[..k];
  }

  /** The nested loops of `run_evaluator`, computing what `Evaluate` specifies. */
  method RunEvaluator(file: Option<Yaml>, rt: Runtime, sc: Scorers, sample: seq<Row>)
    returns (r: Result<seq<ModelScore>, Error>)
    ensures r == Evaluate(file, rt, sc, sample)
    ensures r.Success? ==> WellFormed(r.value, ModelNames)
  {
    var built := New(file, rt);
    if built.Failure? {
      return Failure(built.error);
    }
    var start := built.value;
    var engine := start;
    var results: seq<ModelScore> := [];
    var k := 0;
    while k < |ModelNames|
      invariant 0 <= k <= |ModelNames|
      invariant ScoreModels(start, sc, rt, sample, ModelNames[..k]) == Success((engine, results))
    {
      var name := ModelNames[k];
      ScoreModelsStep(start, sc, rt, sample, ModelNames, k, (engine, results));
      var switched := Switch(engine, name, rt);
      if switched.Failure? {
        ScoreModelsPrefixFailure(start, sc, rt, sample, ModelNames, k + 1);
        return Failure(switched.error);
      }
      engine := switched.value;
      var counted := CountCorrect(engine, sc, sample);
      if counted.Failure? {
        ScoreModelsPrefixFailure(start, sc, rt, sample, ModelNames, k + 1);
        return Failure(counted.error);
      }
      var correct := counted.value;
      var accuracy := Percent(correct, |sample|);
      if accuracy.Failure? {
        ScoreModelsPrefixFailure(start, sc, rt, sample, ModelNames, k + 1);
        return Failure(accuracy.error);
      }
      results := results + [ModelScore(name, accuracy.value)];
      k := k + 1;
    }
    assert ModelNames[..k] == ModelNames;
    return Success(results);
  }

  /** With a complete configuration and a non-empty sample every model is scored. */
  lemma {:induction false} ScoreModelsComplete(e: Engine, sc: Scorers, rt: Runtime, sample: seq<Row>, names: seq<string>)
    requires CompleteConfig(e.config) && |sample| > 0
    ensures ScoreModels(e, sc, rt, sample, names).Success?
    decreases |names|
  {
    if |names| > 0 {
      ScoreModelsComplete(e, sc, rt, sample, names[..|names| - 1]);
      var done := ScoreModels(e, sc, rt, sample, names[..|names| - 1]).value;
      var name := names[|names| - 1];
      InitializeReady(done.0, Str(name), rt);
      TallyReady(Switch(done.0, name, rt).value, sc, sample);
    }
  }

  /** `run_evaluator` completes whenever the settings file holds every entry it reads and the sample is not empty. */
  lemma EvaluateComplete(config: Yaml, rt: Runtime, sc: Scorers, sample: seq<Row>)
    requires CompleteConfig(config) && |sample| > 0
    ensures Evaluate(Some(config), rt, sc, sample).Success?
  {
    NewComplete(config, rt);
    ScoreModelsComplete(New(Some(config), rt).value, sc, rt, sample, ModelNames);
  }

  /** With a complete settings file, an empty sample reaches the division and raises `ZeroDivisionError`. */
  lemma EvaluateEmptySample(config: Yaml, rt: Runtime, sc: Scorers)
    requires CompleteConfig(config)
    ensures Evaluate(Some(config), rt, sc, []) == Failure(ZeroDivisionError)
  {
    NewComplete(config, rt);
    var e := New(Some(config), rt).value;
    assert ModelNames[..1][..0] == [];
    InitializeReady(e, Str(VaderName), rt);
    TallyReady(Switch(e, VaderName, rt).value, sc, []);
    ScoreModelsPrefixFailure(e, sc, rt, [], ModelNames, 1);
  }

  /**
   * Without a settings file the fallback configuration has no textblob entry: `run_evaluator`
   * scores vader and then raises `KeyError('textblob')`, or divides by zero first on an empty sample.
   */
  lemma EvaluateWithoutConfig(rt: Runtime, sc: Scorers, sample: seq<Row>)
    ensures Evaluate(None, rt, sc, sample) == Failure(if |sample| == 0 then ZeroDivisionError else KeyError(TextBlobName))
  {
    FallbackEngine(rt);
    var e := Engine(FallbackConfig, Str(VaderName), Analyzer, Num(0.05));
    FallbackMissingKeys(e, rt);
    assert ModelNames[..1][..0] == [];
    assert ModelNames[..2][..1] == ModelNames[..1];
    var vader := Switch(e, VaderName, rt);
    assert vader == Success(e);
    TallyReady(e, sc, sample);
    if |sample| == 0 {
      ScoreModelsPrefixFailure(e, sc, rt, sample, ModelNames, 1);
    } else {
      assert ScoreModels(e, sc, rt, sample, ModelNames[..1]).Success?;
      ScoreModelsPrefixFailure(e, sc, rt, sample, ModelNames, 2);
    }
  }
}

=== FILE: models.dfy ===
/**
 * The `SentimentModel` engine of models.py: configuration with its fallback,
 * per-model initialisation, and the decision rules of `predict`. The three
 * scorers (VADER, TextBlob, the transformers pipeline) are uninterpreted
 * functions supplied by the caller.
 */
module Models {
  import opened Wrappers
  import opened Exceptions

  /** A value as `yaml.safe_load` returns it; `Other` stands for lists and booleans. */
  datatype Yaml = Null | Num(x: real) | Str(s: string) | Dict(entries: map<string, Yaml>) | Other

  datatype Sentiment = Positive | Negative | Neutral

  const VaderName: string := "vader"
  const TextBlobName: string := "textblob"
  const RobertaName: string := "roberta"

  /** The configuration entries the constructor and `initialize_model` read. */
  const ActivePath: seq<string> := ["api_config", "active_model"]
  const VaderThresholdPath: seq<string> := ["model_config", VaderName, "threshold"]
  const TextBlobThresholdPath: seq<string> := ["model_config", TextBlobName, "polarity_threshold"]
  const RobertaModelPath: seq<string> := ["model_config", RobertaName, "model_name"]

  /** The only pipeline label that counts as positive. */
  const PositiveLabel: string := "LABEL_2"

  /** Python's `v[key]` on a loaded configuration value. */
  function Index(v: Yaml, key: string): Result<Yaml, Error> {
    if !v.Dict? then Failure(TypeError)
    else if key in v.entries then Success(v.entries[key])
    else Failure(KeyError(key))
  }

  /** `v[path[0]][path[1]]…`, failing at the first step that fails. */
  function Lookup(v: Yaml, path: seq<string>): Result<Yaml, Error>
    decreases |path|
  {
    if |path| == 0 then Success(v)
    else
      var w :- Index(v, path[0]);
      Lookup(w, path[1..])
  }

  /** The configuration used when the settings file does not exist. */
  const FallbackConfig: Yaml :=
    Dict(map[
      "api_config" := Dict(map["active_model" := Str(VaderName)]),
      "model_config" := Dict(map[VaderName := Dict(map["threshold" := Num(0.05)])])
    ])

  /** `load_config`: `file` is the parsed settings file, `None` when it does not exist. */
  function LoadConfig(file: Option<Yaml>): Yaml {
    match file
    case Some(parsed) => parsed
    case None => FallbackConfig
  }

  /** What `self.model` holds. */
  datatype Handle =
    | NoHandle                    // `None`
    | Analyzer                    // a VADER `SentimentIntensityAnalyzer`
    | Pipeline(modelId: Yaml)     // a transformers pipeline built for `modelId`

  /** The fields of a `SentimentModel` object. */
  datatype Engine = Engine(config: Yaml, activeName: Yaml, handle: Handle, threshold: Yaml)

  /** The environment of the roberta branch: whether `transformers` imports, and whether building a pipeline raises `ImportError`. */
  datatype Runtime = Runtime(transformersImports: bool, pipelineLoads: Yaml -> bool)

  /** The scorers: VADER's compound score, TextBlob's polarity, and the pipeline's top label. */
  datatype Scorers = Scorers(compound: string -> real, polarity: string -> real, topLabel: (Yaml, string) -> string)

  /** `initialize_model(name)`; a name that is none of the three leaves the engine as it was. */
  function InitializeModel(e: Engine, name: Yaml, rt: Runtime): (r: Result<Engine, Error>)
    ensures r.Success? ==> r.value.config == e.config && r.value.activeName == e.activeName
    ensures name !in {Str(VaderName), Str(TextBlobName), Str(RobertaName)} ==> r == Success(e)
    // vader loads the analyzer and takes its threshold from the configuration, or raises the lookup's error
    ensures name == Str(VaderName) ==>
      match Lookup(e.config, VaderThresholdPath)
      case Success(t) => r.Success? && r.value.handle == Analyzer && r.value.threshold == t
      case Failure(err) => r == Failure(err)
    // textblob only takes its threshold, and keeps whatever model was loaded before
    ensures name == Str(TextBlobName) ==>
      match Lookup(e.config, TextBlobThresholdPath)
      case Success(t) => r.Success? && r.value.handle == e.handle && r.value.threshold == t
      case Failure(err) => r == Failure(err)
    // roberta never touches the threshold; a failed import clears the model before any lookup
    ensures name == Str(RobertaName) && !rt.transformersImports ==> r == Success(e.(handle := NoHandle))
    ensures name == Str(RobertaName) && rt.transformersImports ==>
      match Lookup(e.config, RobertaModelPath)
      case Success(id) =>
        && r.Success? && r.value.threshold == e.threshold
        && r.value.handle == (if rt.pipelineLoads(id) then Pipeline(id) else NoHandle)
      case Failure(err) => r == Failure(err)
  {
    if name == Str(VaderName) then
      var t :- Lookup(e.config, VaderThresholdPath);
      Success(e.(handle := Analyzer, threshold := t))
    else if name == Str(TextBlobName) then
      var t :- Lookup(e.config, TextBlobThresholdPath);
      Success(e.(threshold := t))
    else if name == Str(RobertaName) then
      if !rt.transformersImports then Success(e.(handle := NoHandle))
      else
        var id :- Lookup(e.config, RobertaModelPath);
        Success(e.(handle := if rt.pipelineLoads(id) then Pipeline(id) else NoHandle))
    else Success(e)
  }

  /** `SentimentModel(config_path)`: load the configuration, read the active name, initialise it. */
  function New(file: Option<Yaml>, rt: Runtime): (r: Result<Engine, Error>)
    ensures Lookup(LoadConfig(file), ActivePath).Failure? ==> r == Failure(Lookup(LoadConfig(file), ActivePath).error)
    ensures r.Success? ==>
      && r.value.config == LoadConfig(file)
      && Lookup(LoadConfig(file), ActivePath) == Success(r.value.activeName)
    // the active model is initialised: construction fails exactly when its initialisation does
    ensures var active := Lookup(LoadConfig(file), ActivePath);
      active.Success? ==>
        (r.Success? <==> InitializeModel(Engine(LoadConfig(file), active.value, NoHandle, Num(0.0)), active.value, rt).Success?)
    ensures NumericThresholds(LoadConfig(file)) && r.Success? ==> Ready(r.value)
  {
    var config := LoadConfig(file);
    var active :- Lookup(config, ActivePath);
    InitializeModel(Engine(config, active, NoHandle, Num(0.0)), active, rt)
  }

  /** `score >= threshold`, or `score > threshold` when `strict`; comparing with a non-number raises. */
  function Threshold(score: real, threshold: Yaml, strict: bool): Result<Sentiment, Error> {
    if !threshold.Num? then Failure(TypeError)
    else if (if strict then score > threshold.x else score >= threshold.x) then Success(Positive)
    else Success(Negative)
  }

  /** An engine `predict` can use without raising. */
  predicate Ready(e: Engine) {
    && (e.activeName == Str(VaderName) ==> e.handle.Analyzer? && e.threshold.Num?)
    && (e.activeName == Str(TextBlobName) ==> e.threshold.Num?)
    && (e.activeName == Str(RobertaName) ==> !e.handle.Analyzer?)
  }

  /** No recognised, usable engine: `predict` falls through to `"neutral"`. */
  predicate FallsThrough(e: Engine) {
    && e.activeName != Str(VaderName)
    && e.activeName != Str(TextBlobName)
    && (e.activeName == Str(RobertaName) ==> e.handle.NoHandle?)
  }

  /** `predict(text)`. */
  function Predict(e: Engine, sc: Scorers, text: string): (r: Result<Sentiment, Error>)
    ensures r.Success? <==> Ready(e)
    ensures r == Success(Neutral) <==> FallsThrough(e)
  {
    if e.activeName == Str(VaderName) then
      if !e.handle.Analyzer? then Failure(AttributeError)
      else Threshold(sc.compound(text), e.threshold, false)
    else if e.activeName == Str(TextBlobName) then
      Threshold(sc.polarity(text), e.threshold, true)
    else if e.activeName == Str(RobertaName) && !e.handle.NoHandle? then
      match e.handle
      case Pipeline(id) => Success(if sc.topLabel(id, text) == PositiveLabel then Positive else Negative)
      case _ => Failure(TypeError)
    else Success(Neutral)
  }

  /** vader: positive exactly when the compound score reaches the threshold, negative otherwise. */
  lemma VaderRule(e: Engine, sc: Scorers, text: string)
    requires e.activeName == Str(VaderName) && e.handle.Analyzer? && e.threshold.Num?
    ensures Predict(e, sc, text) == Success(Positive) <==> sc.compound(text) >= e.threshold.x
    ensures Predict(e, sc, text) == Success(Negative) <==> sc.compound(text) < e.threshold.x
  {
  }

  /** textblob: positive exactly when the polarity is strictly above the threshold; a tie is negative. */
  lemma TextBlobRule(e: Engine, sc: Scorers, text: string)
    requires e.activeName == Str(TextBlobName) && e.threshold.Num?
    ensures Predict(e, sc, text) == Success(Positive) <==> sc.polarity(text) > e.threshold.x
    ensures Predict(e, sc, text) == Success(Negative) <==> sc.polarity(text) <= e.threshold.x
    ensures sc.polarity(text) == e.threshold.x ==> Predict(e, sc, text) == Success(Negative)
  {
  }

  /** roberta with a loaded pipeline: only `LABEL_2` is positive; every other label, `LABEL_1` included, is negative. */
  lemma RobertaRule(e: Engine, sc: Scorers, text: string)
    requires e.activeName == Str(RobertaName) && e.handle.Pipeline?
    ensures Predict(e, sc, text) == Success(Positive) <==> sc.topLabel(e.handle.modelId, text) == PositiveLabel
    ensures Predict(e, sc, text) == Success(Negative) <==> sc.topLabel(e.handle.modelId, text) != PositiveLabel
  {
  }

  /** vader and textblob always decide: they never answer neutral. */
  lemma ThresholdRulesNeverNeutral(e: Engine, sc: Scorers, text: string)
    requires e.activeName in {Str(VaderName), Str(TextBlobName)}
    requires Ready(e)
    ensures Predict(e, sc, text) in {Success(Positive), Success(Negative)}
  {
  }

  /** Both threshold rules are monotone: a text scoring at least as high as a positive one is positive too. */
  lemma ThresholdMonotone(e: Engine, sc: Scorers, t1: string, t2: string)
    requires Predict(e, sc, t1) == Success(Positive)
    requires e.activeName == Str(VaderName) ==> sc.compound(t2) >= sc.compound(t1)
    requires e.activeName == Str(TextBlobName) ==> sc.polarity(t2) >= sc.polarity(t1)
    requires e.activeName in {Str(VaderName), Str(TextBlobName)}
    ensures Predict(e, sc, t2) == Success(Positive)
  {
  }

  /** A missing settings file yields vader with threshold 0.05. */
  lemma FallbackEngine(rt: Runtime)
    ensures New(None, rt) == Success(Engine(FallbackConfig, Str(VaderName), Analyzer, Num(0.05)))
  {
    assert Lookup(FallbackConfig, ActivePath) == Success(Str(VaderName));
    var models := Dict(map[VaderName := Dict(map["threshold" := Num(0.05)])]);
    assert Index(FallbackConfig, "model_config") == Success(models);
    assert Lookup(Dict(map["threshold" := Num(0.05)]), ["threshold"]) == Success(Num(0.05));
    assert Lookup(models, [VaderName, "threshold"]) == Success(Num(0.05));
    assert Lookup(FallbackConfig, VaderThresholdPath) == Success(Num(0.05));
  }

  /**
   * The fallback configuration has no entry for textblob or roberta: initialising textblob raises
   * `KeyError`, and so does roberta unless the `transformers` import fails first.
   */
  lemma FallbackMissingKeys(e: Engine, rt: Runtime)
    requires e.config == FallbackConfig
    ensures InitializeModel(e, Str(TextBlobName), rt) == Failure(KeyError(TextBlobName))
    ensures rt.transformersImports ==> InitializeModel(e, Str(RobertaName), rt) == Failure(KeyError(RobertaName))
    ensures !rt.transformersImports ==> InitializeModel(e, Str(RobertaName), rt) == Success(e.(handle := NoHandle))
  {
    var models := Dict(map[VaderName := Dict(map["threshold" := Num(0.05)])]);
    assert Index(FallbackConfig, "model_config") == Success(models);
    assert TextBlobName !in models.entries && RobertaName !in models.entries;
    assert Lookup(models, [TextBlobName, "polarity_threshold"]) == Failure(KeyError(TextBlobName));
    assert Lookup(models, [RobertaName, "model_name"]) == Failure(KeyError(RobertaName));
    assert Lookup(FallbackConfig, TextBlobThresholdPath) == Failure(KeyError(TextBlobName));
    assert Lookup(FallbackConfig, RobertaModelPath) == Failure(KeyError(RobertaName));
  }

  /** Thresholds that are present in a configuration are numbers. */
  predicate NumericThresholds(config: Yaml) {
    && (Lookup(config, VaderThresholdPath).Success? ==>
          Lookup(config, VaderThresholdPath).value.Num?)
    && (Lookup(config, TextBlobThresholdPath).Success? ==>
          Lookup(config, TextBlobThresholdPath).value.Num?)
  }

  /** Selecting a model and initialising it yields an engine `predict` can use, when the thresholds are numbers. */
  lemma InitializeReady(e: Engine, name: Yaml, rt: Runtime)
    requires NumericThresholds(e.config)
    requires InitializeModel(e.(activeName := name), name, rt).Success?
    ensures Ready(InitializeModel(e.(activeName := name), name, rt).value)
  {
  }

  /** Every entry the constructor and `initialize_model` read is present, and the thresholds are numbers. */
  predicate CompleteConfig(config: Yaml) {
    && Lookup(config, ActivePath).Success?
    && Lookup(config, VaderThresholdPath).Success?
    && Lookup(config, TextBlobThresholdPath).Success?
    && Lookup(config, RobertaModelPath).Success?
    && NumericThresholds(config)
  }

  /** With a complete configuration, the constructor succeeds and leaves an engine `predict` can use. */
  lemma NewComplete(config: Yaml, rt: Runtime)
    requires CompleteConfig(config)
    ensures New(Some(config), rt).Success?
    ensures New(Some(config), rt).value.config == config
    ensures Ready(New(Some(config), rt).value)
  {
    var active := Lookup(config, ActivePath).value;
    InitializeReady(Engine(config, active, NoHandle, Num(0.0)), active, rt);
  }
}

=== FILE: subsequence.dfy ===
/** The subsequence relation: every stage of the tweet cleaner only deletes characters. */
module Subsequence {

  /** `a` is obtained from `b` by deleting zero or more elements. */
  predicate IsSubseq<T(==)>(a: seq<T>, b: seq<T>)
    decreases |b|
  {
    if |b| == 0 then |a| == 0
    else IsSubseq(a, b[1..]) || (|a| > 0 && a[0] == b[0] && IsSubseq(a[1..], b[1..]))
  }

  lemma {:induction false} SubseqNil<T>(b: seq<T>)
    ensures IsSubseq([], b)
    decreases |b|
  {
    if |b| > 0 {
      SubseqNil(b[1..]);
    }
  }

  lemma {:induction false} SubseqRefl<T>(a: seq<T>)
    ensures IsSubseq(a, a)
    decreases |a|
  {
    if |a| > 0 {
      SubseqRefl(a[1..]);
    }
  }

  lemma SubseqCons<T>(c: T, a: seq<T>, b: seq<T>)
    requires IsSubseq(a, b)
    ensures IsSubseq([c] + a, [c] + b)
  {
    assert ([c] + a)[1..] == a;
    assert ([c] + b)[1..] == b;
  }

  /** Deleting a prefix of the larger sequence keeps the relation. */
  lemma {:induction false} SubseqDropPrefix<T>(a: seq<T>, b: seq<T>, k: nat)
    requires k <= |b|
    requires IsSubseq(a, b[k..])
    ensures IsSubseq(a, b)
    decreases k
  {
    if k > 0 {
      assert b[k - 1..][1..] == b[k..];
      SubseqDropPrefix(a, b, k - 1);
    }
  }

  lemma {:induction false} SubseqAppend<T>(a: seq<T>, b: seq<T>, c: seq<T>)
    requires IsSubseq(a, b)
    ensures IsSubseq(a, b + c)
    decreases |b|
  {
    if |b| == 0 {
      SubseqNil(c);
      assert b + c == c;
    } else {
      assert (b + c)[1..] == b[1..] + c;
      if IsSubseq(a, b[1..]) {
        SubseqAppend(a, b[1..], c);
      } else {
        SubseqAppend(a[1..], b[1..], c);
      }
    }
  }

  /** Every contiguous slice is a subsequence. */
  lemma SliceSubseq<T>(s: seq<T>, lo: nat, hi: nat)
    requires lo <= hi <= |s|
    ensures IsSubseq(s[lo..hi], s)
  {
    SubseqRefl(s[lo..hi]);
    SubseqAppend(s[lo..hi], s[lo..hi], s[hi..]);
    assert s[lo..hi] + s[hi..] == s[lo..];
    SubseqDropPrefix(s[lo..hi], s, lo);
  }

  lemma {:induction false} SubseqLength<T>(a: seq<T>, b: seq<T>)
    requires IsSubseq(a, b)
    ensures |a| <= |b|
    decreases |b|
  {
    if |b| > 0 {
      if IsSubseq(a, b[1..]) {
        SubseqLength(a, b[1..]);
      } else {
        SubseqLength(a[1..], b[1..]);
      }
    }
  }

  /** Every element of a subsequence occurs in the larger sequence. */
  lemma {:induction false} SubseqElements<T>(a: seq<T>, b: seq<T>)
    requires IsSubseq(a, b)
    ensures forall i :: 0 <= i < |a| ==> a[i] in b
    decreases |b|
  {
    if |b| > 0 {
      if IsSubseq(a, b[1..]) {
        SubseqElements(a, b[1..]);
      } else {
        SubseqElements(a[1..], b[1..]);
        forall i | 0 <= i < |a|
          ensures a[i] in b
        {
          if i > 0 {
            assert a[i] == a[1..][i - 1];
            assert a[i] in b[1..];
          }
        }
      }
    }
  }

  /** A property every element of `b` has is kept by every subsequence of `b`. */
  lemma SubseqAll<T>(a: seq<T>, b: seq<T>, p: T -> bool)
    requires IsSubseq(a, b)
    requires forall j :: 0 <= j < |b| ==> p(b[j])
    ensures forall i :: 0 <= i < |a| ==> p(a[i])
  {
    SubseqElements(a, b);
  }

  lemma {:induction false} SubseqTrans<T>(a: seq<T>, b: seq<T>, c: seq<T>)
    requires IsSubseq(a, b) && IsSubseq(b, c)
    ensures IsSubseq(a, c)
    decreases |c|
  {
    if |c| > 0 {
      if IsSubseq(b, c[1..]) {
        SubseqTrans(a, b, c[1..]);
      } else if IsSubseq(a, b[1..]) {
        SubseqTrans(a, b[1..], c[1..]);
      } else {
        SubseqTrans(a[1..], b[1..], c[1..]);
      }
    }
  }
}

=== FILE: wrappers.dfy ===
/** Option and Result, with the failure-compatible members that let `:-` propagate an error. */
module Wrappers {

  datatype Option<+T> = None | Some(value: T)

  datatype Result<+T, +E> = Success(value: T) | Failure(error: E) {

    predicate IsFailure() {
      Failure?
    }

    function PropagateFailure<U>(): Result<U, E>
      requires Failure?
    {
      Failure(error)
    }

    function Extract(): T
      requires Success?
    {
      value
    }
  }
}

/** The Python exceptions that can escape the modelled code. */
module Exceptions {

  datatype Error =
    | KeyError(key: string)   // a mapping lookup whose key is missing
    | TypeError               // indexing a non-mapping, comparing a score with a non-number, calling a non-callable
    | AttributeError          // `polarity_scores` looked up on an object that is not a VADER analyser
    | ZeroDivisionError       // an accuracy computed over an empty sample
}
